=== FILE: README.md ===
# Token bridge relayer: a Dafny model

The relayer watches the TokensLocked events of two bridge contracts, one on a
Geth fork and one on Binance Smart Chain. It stores each lock as a document in
a MongoDB `events` collection. A queue then mints the wrapped token on the
other chain for each stored lock. The repository holds five drafts of this
service, `offchainService.js` to `offchainService5.js`. This project models the
deterministic core of each draft:

- **The collection** (`EventStore`). A class whose `records` sequence the
  inserts and updates change in place. It holds:
  - `findOne` in insertion order;
  - the guarded inserts: by transaction hash in the later drafts, by chain,
    user and amount among unprocessed documents in the first two;
  - one step of the queue, in two variants: drafts three and four mark
    failures, drafts one and two leave a failed document untouched.
- **The backfill plan of the fourth draft** (`RangePlan`): the consecutive
  block sub-ranges its `while` loops query.
- **The bounded retry of a mint** (`MintRetry`):
  - `processEvent(event, retryCount)` by recursion, exactly as the drafts write
    it (`RetryFrom`);
  - the same retry as a counting loop (`Submit`), proved equal to it.
- **The retrying `processEvent` and the failure-marking `processQueue`**
  (`RetryQueue`). Drafts three, four and five share the retrying
  `processEvent`; only drafts three and four define this `processQueue`.
- **One module per draft** (`Service1` to `Service5`): its listeners, start-up
  and callbacks as methods on the collection.

The chain and the database are treated as inputs:

- **Past-event queries.** `query: Range -> Option<seq<Log>>` stands for
  getPastEvents; `None` means the query threw.
- **Mint attempts.** One queue step takes `results`, how its
  `MaxRetries + 1` attempts end. Where several steps run, `mint(k)` gives the
  answers of the `k`-th step, whichever document it picks, so a document
  picked again by a later step gets that step's answers. In the
  single-attempt drafts, `sendOk` says whether the step's one send went
  through.
- **Subscriptions and block heights.** A subscription event or block height is
  a plain parameter, and `None` stands for a subscription error.
- **Pauses.** The pauses between attempts are not waited for. They are
  counted, in milliseconds, in the returned outcome.

The fourth draft inserts and also runs a queue step after every insert.
`Service4.InsertAndStep` defines the collection and the number of queue steps
after such a run, flags included, and every method of that draft is proved to
produce exactly that. Its consequences are stated as lemmas: with the
`processed` and `failed` flags cleared (`Stripped`) the collection is what the
guarded inserts alone produce, no processed document changes, logs already
stored change nothing, and no document becomes processed without a
successful mint.

The drafts do not all parse, for example `offchainService3.js:18` and the
template strings in `offchainService5.js`. The model follows their evident
logic.

## Model

| member | source | states |
|---|---|---|
| Bridge.Destination | offchainService4.js:74 | a `"geth"` record mints on the BSC token; every other tag, `"bsc"` or unknown, mints on the Geth token |
| Bridge.SigningAccount | offchainService4.js:75 | the mint is signed by the account registered for the record's own chain, the chain opposite the one minted on |
| Bridge.DestinationIsOpposite | offchainService4.js:73-75 | a lock tagged by a network's listener mints on the other network's token, never on its own |
| EventStore.Collection.InsertOne | offchainService4.js:209-216 | `insertOne` appends the document at the end of the collection |
| EventStore.Collection.SetProcessed | offchainService4.js:105 | `updateOne` sets `processed` on that document alone |
| EventStore.Collection.SetFailed | offchainService4.js:107 | `updateOne` sets `failed` on that document alone |
| EventStore.FirstMatch | offchainService4.js:100 | `findOne(filter)` returns the first matching document in insertion order, or nothing when no document matches |
| EventStore.InsertIfAbsent | offchainService4.js:206-216 | afterwards the hash is stored; a hash already stored leaves the collection unchanged, and otherwise exactly the given document is appended |
| EventStore.Ingest | offchainService4.js:203-216 | the guarded insert of each document in turn appends at most one document per log |
| EventStore.IngestExtends | offchainService4.js:203-220 | ingesting keeps the existing documents as a prefix, appends at most one document per log, and appends only documents built from the logs |
| EventStore.IngestCovers | offchainService4.js:206-216 | after ingesting, every log's hash is present, and every hash that was present still is |
| EventStore.IngestPresentIsNoop | offchainService4.js:206-208 | logs whose hashes are all present insert nothing |
| EventStore.IngestIdempotent | offchainService4.js:203-220 | processing the same logs a second time leaves the collection unchanged |
| EventStore.IngestAppend | offchainService4.js:121-136 | ingesting two batches one after the other equals ingesting their concatenation |
| EventStore.IngestKeepsUnique | offchainService4.js:206-216 | a collection without duplicate hashes stays without them |
| EventStore.IngestRecordsEachOnce | offchainService4.js:206-216 | starting without duplicate hashes, every ingested document's transaction hash is carried by exactly one document |
| EventStore.StrippedSameHashes | offchainService4.js:105-107 | changing only the flags keeps every hash in its place, so uniqueness and each-hash-once carry over |
| EventStore.StrippedInsert | offchainService4.js:206-216 | the guarded insert of a new, flagless document does not depend on the flags already set |
| EventStore.QueueStepKeepsStripped | offchainService4.js:99-112 | a queue step changes flags only and never changes a processed document |
| EventStore.RecordLock | offchainService.js:105-109 | an unprocessed document with the lock's chain, user and amount leaves the collection unchanged; otherwise exactly the lock's document is appended; either way such a document exists afterwards |
| EventStore.RecordLockTwiceIsOnce | offchainService.js:105-109 | a second identical lock is dropped while the first is unprocessed, and after a lock an unprocessed match always exists |
| EventStore.RecordLockAgainAfterProcessed | offchainService.js:105-109 | once the matching document is processed, the same lock is recorded again |
| EventStore.SecondIdenticalLockDropped | offchainService.js:105-108 | two separate locks with equal chain, user and amount leave one document |
| EventStore.DistinctLocksBothRecorded | offchainService4.js:206-216 | keyed by transaction hash, two such locks from different transactions are both recorded |
| EventStore.QueueStep | offchainService4.js:99-108 | a queue step keeps the length and every processed document, and leaves the picked document processed exactly when its mint succeeded (also offchainService.js:78-93, which marks no failure) |
| EventStore.QueueStepFrame | offchainService4.js:100-108 | a queue step keeps the length, changes only the picked unprocessed document, keeps its chain, user, amount and hash, and never clears a flag |
| EventStore.ProcessedNeverReselected | offchainService4.js:99-111 | in one sequential queue, over any number of queue steps a processed document is never picked or changed again, so that queue never mints it twice; concurrent polling chains are not modelled (see "Left out") |
| EventStore.FailedRecordReselected | offchainService4.js:107 | a document whose mint failed is marked failed but keeps `processed == false`, so the next step picks it again |
| EventStore.FailedThenProcessed | offchainService4.js:100-108 | a failed mint followed by a successful one leaves the document both processed and failed |
| EventStore.TerminalQueueStep | offchainService4.js:99-108 | the corrected step keeps the length and leaves the picked pending document with exactly one flag: processed on success, failed on failure |
| EventStore.TerminalQueueStepIsFinal | offchainService4.js:100-108 | with failure treated as terminal, processed and failed documents never change, no document carries both flags, and a failed document is not picked again |
| RangePlan.Ranges | offchainService4.js:119-137 | the sub-ranges the backfill loop visits: `[from, min(from + step - 1, head)]` from the start, advancing by `step` while `from <= head`; its properties are the lemmas below |
| RangePlan.RangesWellFormed | offchainService4.js:118-122 | every sub-range lies within the bounds, is non-empty, and holds fewer than `step + 1` blocks |
| RangePlan.RangesContiguous | offchainService4.js:119-136 | there are no sub-ranges exactly when the start is past the head; the first starts at the start, the last ends at the head, and each begins right after the previous one ends, `step` blocks after it began |
| RangePlan.RangesDisjoint | offchainService4.js:121-136 | no block is queried by two sub-ranges |
| RangePlan.RangesCover | offchainService4.js:119-137 | a block is queried if and only if it lies between the start and the head |
| RangePlan.RangesCount | offchainService4.js:121-136 | there are `ceil((head - start + 1) / step)` sub-ranges |
| RangePlan.RangesCountBounds | offchainService4.js:121-136 | with `m` sub-ranges, `(m - 1) * step <= head - start < m * step` |
| RangePlan.BscBackfillExample | offchainService4.js:154-175 | a BSC backfill to head 2499 queries [0,999], [1000,1999] and [2000,2499] |
| MintRetry.RetryFrom | offchainService4.js:67-97 | from attempt `retryCount` on, the retry succeeds iff some remaining attempt mints, makes at most the remaining attempts, and pauses once after every failed attempt |
| MintRetry.Submit | offchainService4.js:65-97 | equals the source's recursion; it makes 1 to 4 attempts and succeeds iff some attempt mints; it stops at the first success with every earlier attempt failed, makes exactly 4 attempts when all fail, and pauses after each failure |
| MintRetry.FailureKindIrrelevant | offchainService4.js:77-96 | a failed gas estimate and a failed send lead to the same outcome |
| MintRetry.NoAttemptAfterSuccess | offchainService4.js:86-87 | answers to attempts after the first success do not affect the outcome |
| RetryQueue.ProcessEvent | offchainService4.js:67-97 | a `"geth"` record mints on the BSC token and any other on the Geth token, for the record's user and amount, from its chain's account with estimated gas; the outcome is the bounded retry, 4 failed attempts and 4 pauses when every attempt fails (also offchainService3.js:72-102 and offchainService5.js:72-102, pause 10 s) |
| RetryQueue.ProcessQueue | offchainService4.js:99-112 | picks the first unprocessed document and returns the bounded retry's outcome on this step's answers; it mints iff some attempt succeeds, on the other network's token from the account of the document's chain, for its user and amount, then sets `processed`, or else `failed` (also offchainService3.js:104-117) |
| RetryQueue.ProcessQueueTerminal | offchainService4.js:100-108 | the corrected step picks the first document that is neither processed nor failed, returns the retry's outcome, and mints iff some attempt succeeds, on the other network's token from the account of the document's chain |
| Service1.ProcessEvent | offchainService.js:61-76 | one send from the shared account with 100000 gas, for the record's user and amount on the other network's token, succeeding iff the send goes through |
| Service1.ProcessQueue | offchainService.js:78-93 | picks the first unprocessed document and mints it on the other network's token, for its user and amount, setting `processed` iff the send goes through; on failure it changes nothing and pauses 10 s |
| Service1.FailedMintRetried | offchainService.js:85-88 | a failed mint leaves the collection as it was, so the same document is retried |
| Service1.OnTokensLocked | offchainService.js:96-127 | an error changes nothing; otherwise the lock is recorded under the listener's tag unless an unprocessed document with the same chain, user and amount exists (also offchainService2.js:93-134) |
| Service1.LockMintedOnOtherNetwork | offchainService.js:102-108 | a new lock is appended with the listener's tag, user and amount, and is destined for the other network |
| Service1.StartListening | offchainService.js:130-147 | the BSC bridge is queried only after the Geth query succeeds; one queue step runs iff both succeed; it mints iff it started, an unprocessed document exists and the send goes through, on the other network's token for that document's user and amount; start-up never inserts |
| Service2.ProcessEvent | offchainService2.js:58-73 | as written, nothing is sent and the result is always false |
| Service2.ProcessEventIntended | offchainService2.js:58-73 | the corrected call sends from the account of the record's chain with 100000 gas and succeeds iff the send goes through |
| Service2.IntendedSenderIsLockChain | offchainService2.js:36-46 | the corrected sender is the account of the network the lock was seen on, and the mint goes to the other network |
| Service2.ProcessQueue | offchainService2.js:75-90 | picks the first unprocessed document and pauses 10 s; the collection never changes |
| Service2.StartListening | offchainService2.js:137-153 | queries as in the first draft; the collection never changes |
| Service3.StartListening | offchainService3.js:120-138 | the BSC bridge is queried only after the Geth query succeeds; one failure-marking queue step runs iff both succeed; it mints iff it started, an unprocessed document exists and some attempt mints, on the other network's token from that document's chain account for its user and amount; start-up never inserts |
| Service4.RecordOf | offchainService4.js:204-216 | the document for a log carries its chain, user, amount and hash, with both flags false |
| Service4.InsertAndStep | offchainService4.js:200-221 | the collection and the step count after `processEvents`: each log's document is inserted unless its hash is stored, and each insert is followed by one queue step with that step's answers; neither the collection nor the step count shrinks |
| Service4.InsertAndStepStripped | offchainService4.js:200-221 | with the flags cleared, the collection is the guarded insert of each log's document; no processed document changes; exactly one queue step runs per insert |
| Service4.InsertAndStepPresentIsNoop | offchainService4.js:206-208 | logs whose hashes are all stored leave the collection unchanged, flags included, and run no queue step |
| Service4.InsertAndStepIdempotent | offchainService4.js:200-221 | delivering the same logs again, whatever the chain answers then, leaves the collection exactly as the first delivery left it and runs no queue step |
| Service4.InsertAndStepAppend | offchainService4.js:121-137 | processing two batches in turn equals processing their concatenation, the queue steps numbered on from the first batch |
| Service4.NoMintNoProcessed | offchainService4.js:103-105 | when no attempt of any queue step mints, no document becomes processed |
| Service4.ProcessEvents | offchainService4.js:200-221 | the collection and the next step number are exactly `InsertAndStep` of the logs' documents, flags included; hence with flags cleared the collection is the guarded inserts alone, and no processed document changes |
| Service4.Fetched | offchainService4.js:121-137 | the logs fetched by a backfill are exactly the logs of the queried ranges whose query answered |
| Service4.Backfill | offchainService4.js:116-137 | queries exactly the planned sub-ranges, including after a query throws; the collection and step count are exactly `InsertAndStep` of the fetched logs in query order; processed documents are kept; each fetched log's transaction hash is carried by exactly one document |
| Service4.QueryRange | offchainService4.js:124-134 | a sub-range query that answers has its logs processed exactly as `InsertAndStep`; one that throws is caught and changes nothing |
| Service4.ProcessedLogsRecorded | offchainService4.js:200-221 | after `InsertAndStep`, the flagless collection is the guarded inserts alone, processed documents are kept, and without duplicate hashes before, each log's transaction hash is carried by exactly one document |
| Service4.SameTransactionSecondLockDropped | offchainService4.js:206-208 | of two locks in one transaction only the first log's document is stored, so a second lock with another user or amount is stored nowhere |
| Service4.IngestLogsEachOnce | offchainService4.js:203-216 | without duplicate hashes before, processing logs leaves none and each log's transaction hash is carried by exactly one document |
| Service4.BackfillGeth | offchainService4.js:116-137 | Geth backfill from block 0 in sub-ranges of at most 500 blocks, its collection exactly `InsertAndStep` of the fetched logs |
| Service4.BackfillBsc | offchainService4.js:154-175 | BSC backfill from block 0 in sub-ranges of at most 1000 blocks, its collection exactly `InsertAndStep` of the fetched logs |
| Service4.OnNewBlockHeader | offchainService4.js:139-151 | a subscription error changes nothing; otherwise exactly block `[n, n]` is queried and its logs processed exactly as `InsertAndStep` |
| Service5.ChainTag | offchainService5.js:110 | a log is always tagged `"geth"` or `"bsc"` |
| Service5.RecordOf | offchainService5.js:115 | the document for a log is neither processed nor failed, is keyed by the log's hash, carries its user and amount, and mints on BSC exactly when the log came from the Geth bridge, ignoring case |
| Service5.ToLowerIdempotent | offchainService5.js:110 | lowering an address twice is lowering it once |
| Service5.ChainTagIsGethIff | offchainService5.js:110 | the tag is `"geth"` iff the emitting address equals the Geth bridge address ignoring case, and `"bsc"` otherwise; `"geth"` mints on BSC and `"bsc"` on Geth |
| Service5.ChainTagIgnoresCase | offchainService5.js:110 | the letter case of either address does not change the tag |
| Service5.GethLogsTaggedGeth | offchainService5.js:110-115 | logs emitted by the Geth bridge are all stored as `"geth"` and minted on BSC |
| Service5.ProcessEvents | offchainService5.js:104-119 | the collection becomes the guarded insert, by transaction hash, of each log's document with its derived tag |
| Service5.LookbackStart | offchainService5.js:124-128 | the start is never past the head and at most 1000 blocks before it, and it is either block 0 or exactly 1000 blocks before the head |
| Service5.StartListening | offchainService5.js:126-141 | exactly `[LookbackStart(head), head]` is queried on the Geth bridge and its logs processed; a query that throws inserts nothing |
| Service5.OnNewBlockHeader | offchainService5.js:143-156 | a subscription error changes nothing; otherwise exactly block `[n, n]` is queried and its logs processed |

## Left out

- Environment loading, provider construction, `isListening` checks, account and contract setup, ABI loading and `connectToDatabase` are I/O. The collection is a parameter.
- Database operations are modelled as never throwing. A `processEvents` rejected midway by the database, leaving part of a batch inserted, is not modelled.
- The `setTimeout` rescheduling of `processQueue` and the `newBlockHeaders` and `TokensLocked` subscriptions belong to the event loop. Only one queue step and one callback body are modelled, and interleavings of concurrent callbacks are not. In the fourth draft every `processQueue` call, including the one after each insert, schedules a further polling chain (`offchainService4.js:111`, `offchainService4.js:218`); two chains can pick the same unprocessed document before either marks it and mint it twice. The no-double-mint property is proved for one sequential queue only.
- In the fourth draft, `processEvents` awaits one queue step after each insert, and that step is modelled, numbered in the order the steps run. The further steps it schedules by timer are not.
- The pauses (1 s and 10 s) are counted in the returned outcome, not waited for.
- Gas estimation, signing and sending are chain calls. Each attempt's result is an input.
- `amount.toFixed(18)` is number formatting. Amounts are naturals passed through unchanged.
- `offchain.js` is configuration only and is truncated. It is not part of this model.
- The fifth draft calls `processQueue` at `offchainService5.js:121` without defining it, so every `processEvents` call rejects with a ReferenceError after its inserts. No queue step is modelled for that draft, and the rejection is not represented: it changes no document.
- The fifth draft's `processEvent` is `RetryQueue.ProcessEvent` with a 10 s pause. Nothing in that draft calls it.
- The third draft fetches past events only to log them. The logs are not modelled beyond whether each query threw.
- Service5.ChainTag: `toLowerCase` is modelled on ASCII letters only, which covers hexadecimal addresses.
- EventStore.FirstMatch: MongoDB's `findOne` without a sort has no specified order. Insertion order, the natural order of a collection without deletions, is assumed.
- A document's `_id` is modelled as its position, since documents are never deleted.
- The later drafts key documents by transaction hash alone (`offchainService4.js:206-208`, `offchainService5.js:112-114`), so a transaction that emits two TokensLocked events keeps only the first; the model follows the code (`Service4.SameTransactionSecondLockDropped`) and promises one document per transaction, not per lock.
- Bridge.SigningAccount: the per-chain accounts are told apart by the chain they are registered with. Both come from the same private key (`offchainService2.js:22-33`, and in the fourth draft's own setup `offchainService4.js:31-55`), so they share one address, which the model does not identify.

## Findings

| source | as written | input that shows it | evidently intended | confidence | as-written member | corrected member |
|---|---|---|---|---|---|---|
| offchainService2.js:65 | the send options read `account.address`, but this draft declares only `gethAccount` and `bscAccount`; the ReferenceError is caught and `processEvent` returns false | any unprocessed document: every queue step fails and the document is picked forever | send from the account of the record's chain | not executed | Service2.ProcessEvent | Service2.ProcessEventIntended |
| offchainService4.js:107 | a failed mint sets `failed` but leaves `processed == false`, so `findOne({processed: false})` picks the document again, and a later success leaves it both processed and failed (also offchainService3.js:112) | `[{chain: "geth", user: "0xabc", amount: 1000, processed: false}]` with a failed mint and then a successful one | treat `failed` as terminal and pick only documents neither processed nor failed | not executed | EventStore.FailedThenProcessed | EventStore.TerminalQueueStep |
| offchainService.js:105 | a lock is dropped when an unprocessed document with the same chain, user and amount exists, so a second genuine lock of the same amount is never minted (also offchainService2.js:102-107) | two TokensLocked events on Geth, both by `0xabc` for 1000, the second arriving before the first is minted | one document per transaction, keyed by transaction hash as the later drafts do | not executed | EventStore.SecondIdenticalLockDropped | EventStore.DistinctLocksBothRecorded |

The corrected definitions are proved as follows:

- `EventStore.TerminalQueueStep` by `EventStore.TerminalQueueStepIsFinal`, and it is used by `RetryQueue.ProcessQueueTerminal`;
- `Service2.ProcessEventIntended` by its own contract and `Service2.IntendedSenderIsLockChain`;
- hash-keyed ingestion by `EventStore.IngestRecordsEachOnce`.

=== FILE: bridge.dfy ===
/** Values shared by every draft of the relayer: the two networks it connects,
    the records of the `events` collection, the TokensLocked logs a bridge
    contract emits and the mint call the relayer submits. */
module Bridge {

  datatype Option<+T> = None | Some(value: T)

  type Address = string
  type TxHash = string

  /** The two chains the relayer connects. */
  datatype Network = Geth | Bsc

  /** The chain tag a listener writes into a record for events of `n`. */
  function Tag(n: Network): string {
    match n
    case Geth => "geth"
    case Bsc => "bsc"
  }

  function Opposite(n: Network): Network {
    match n
    case Geth => Bsc
    case Bsc => Geth
  }

  /** The network whose wrapped token a record is minted on: a `"geth"`
      record mints on the BSC token and every other tag on the Geth token. */
  function Destination(chain: string): (n: Network)
    ensures chain == Tag(Geth) ==> n == Opposite(Geth)
    ensures chain != Tag(Geth) ==> n == Geth
  {
    if chain == "geth" then Bsc else Geth
  }

  /** The account a mint is sent from. The first draft has one account for both
      chains. The later drafts register an account with each chain's client,
      but both come from the same private key, so they share one address. */
  datatype Account = SharedAccount | AccountOf(network: Network)

  /** The account the retrying drafts choose: the one registered for the
      record's own chain tag, which is the chain opposite the one minted on. */
  function SigningAccount(chain: string): (a: Account)
    ensures a.AccountOf? && a.network == Opposite(Destination(chain))
  {
    if chain == "geth" then AccountOf(Geth) else AccountOf(Bsc)
  }

  /** A fixed gas allowance, or one taken from the preceding gas estimate. */
  datatype Gas = Fixed(units: nat) | Estimated

  /** `wrappedToken.methods.mint(recipient, amount).send({from, gas})`. */
  datatype MintCall = MintCall(token: Network, from: Account, recipient: Address, amount: nat, gas: Gas)

  /** One document of the `events` collection. Drafts that do not write a
      transaction hash leave it `None`; a missing `failed` field reads as false. */
  datatype Record = Record(
    chain: string,
    user: Address,
    amount: nat,
    transactionHash: Option<TxHash>,
    processed: bool,
    failed: bool)

  /** A TokensLocked log: the emitting contract, the transaction hash and the
      return values `_chain`, `_user` and `_amount`. */
  datatype Log = Log(address: Address, transactionHash: TxHash, chain: string, user: Address, amount: nat)

  /** The return values `user` and `amount` a TokensLocked subscription delivers. */
  datatype LockValues = LockValues(user: Address, amount: nat)

  /** An inclusive block range `[fromBlock, toBlock]` given to getPastEvents. */
  datatype Range = Range(fromBlock: nat, toBlock: nat)

  /** The logs a getPastEvents call delivered; `None` is a query that threw. */
  function LogsOf(answer: Option<seq<Log>>): seq<Log> {
    match answer
    case None => []
    case Some(logs) => logs
  }

  /** The two tags the listeners write send each network's locks to the other
      network's token: the relay is symmetric. */
  lemma DestinationIsOpposite(n: Network)
    ensures Destination(Tag(n)) == Opposite(n)
    ensures Destination(Tag(n)) != n
  {
    match n
    case Geth =>
    case Bsc => assert Tag(Bsc) != "geth" by { assert Tag(Bsc)[0] == 'b'; }
  }
}

=== FILE: event_store.dfy ===
/** The MongoDB `events` collection the relayer uses as its only coordination
    point: the documents in insertion order, the queries the drafts issue on
    them (findOne by transaction hash, by chain/user/amount, by
    `processed: false`), the guarded inserts, and one step of the queue. */
module EventStore {
  import opened Bridge

  /** The collection itself. A document's `_id` is its position: documents are
      never deleted. */
  class Collection {
    var records: seq<Record>

    constructor ()
      ensures records == []
    {
      records := [];
    }

    /** `insertOne(r)`. */
    method InsertOne(r: Record)
      modifies this
      ensures records == old(records) + [r]
    {
      records := records + [r];
    }

    /** `updateOne({_id: id}, {$set: {processed: true}})`. */
    method SetProcessed(id: nat)
      requires id < |records|
      modifies this
      ensures records == old(records)[id := old(records)[id].(processed := true)]
    {
      records := records[id := records[id].(processed := true)];
    }

    /** `updateOne({_id: id}, {$set: {failed: true}})`. */
    method SetFailed(id: nat)
      requires id < |records|
      modifies this
      ensures records == old(records)[id := old(records)[id].(failed := true)]
    {
      records := records[id := records[id].(failed := true)];
    }
  }

  // ---------------------------------------------------------------------
  // findOne in natural (insertion) order

  /** `findOne(filter)`: the first document, in insertion order, that matches. */
  function FirstMatch(rs: seq<Record>, filter: Record -> bool): (found: Option<nat>)
    ensures found.Some? ==>
      found.value < |rs| && filter(rs[found.value]) &&
      forall j :: 0 <= j < found.value ==> !filter(rs[j])
    ensures found.None? ==> forall j :: 0 <= j < |rs| ==> !filter(rs[j])
  {
    if rs == [] then None
    else if filter(rs[0]) then Some(0)
    else match FirstMatch(rs[1..], filter)
      case None => None
      case Some(i) => Some(i + 1)
  }

  /** The queue's filter `{processed: false}`. */
  predicate Unprocessed(r: Record) {
    !r.processed
  }

  /** Neither processed nor marked failed: the records a queue that treats
      `failed` as terminal may still pick. */
  predicate Pending(r: Record) {
    !r.processed && !r.failed
  }

  // ---------------------------------------------------------------------
  // Deduplication by transaction hash (the later drafts)

  predicate HasHash(rs: seq<Record>, h: Option<TxHash>) {
    exists i :: 0 <= i < |rs| && rs[i].transactionHash == h
  }

  /** No two documents share a transaction hash. */
  predicate UniqueHashes(rs: seq<Record>) {
    forall i, j :: 0 <= i < j < |rs| ==> rs[i].transactionHash != rs[j].transactionHash
  }

  /** `findOne({transactionHash})` followed by `insertOne` when nothing was found. */
  function InsertIfAbsent(rs: seq<Record>, r: Record): (out: seq<Record>)
    ensures HasHash(out, r.transactionHash)
    ensures |rs| <= |out| <= |rs| + 1 && out[..|rs|] == rs
    ensures HasHash(rs, r.transactionHash) ==> out == rs
    ensures !HasHash(rs, r.transactionHash) ==> out == rs + [r]
  {
    if HasHash(rs, r.transactionHash) then rs
    else
      var out := rs + [r];
      assert out[|rs|] == r;
      out
  }

  /** The collection after the guarded insert of each of `recs`, in order. */
  function Ingest(rs: seq<Record>, recs: seq<Record>): (out: seq<Record>)
    ensures |rs| <= |out| <= |rs| + |recs|
    decreases |recs|
  {
    if recs == [] then rs
    else InsertIfAbsent(Ingest(rs, recs[..|recs| - 1]), recs[|recs| - 1])
  }

  lemma HasHashGrows(rs: seq<Record>, more: seq<Record>, h: Option<TxHash>)
    requires HasHash(rs, h)
    ensures HasHash(rs + more, h)
  {
    var i :| 0 <= i < |rs| && rs[i].transactionHash == h;
    assert (rs + more)[i] == rs[i];
  }

  /** Ingesting only appends, and what it appends comes from `recs`. */
  lemma {:induction false} IngestExtends(rs: seq<Record>, recs: seq<Record>)
    ensures |rs| <= |Ingest(rs, recs)| <= |rs| + |recs|
    ensures Ingest(rs, recs)[..|rs|] == rs
    ensures forall j :: |rs| <= j < |Ingest(rs, recs)| ==> Ingest(rs, recs)[j] in recs
  {
    if recs != [] {
      var init, last := recs[..|recs| - 1], recs[|recs| - 1];
      IngestExtends(rs, init);
      var mid := Ingest(rs, init);
      var out := Ingest(rs, recs);
      assert out == InsertIfAbsent(mid, last);
      forall j | |rs| <= j < |out|
        ensures out[j] in recs
      {
        if j < |mid| {
          assert out[j] == mid[j];
          assert mid[j] in init;
          assert init <= recs;
        } else {
          assert out[j] == last;
        }
      }
    }
  }

  /** After ingesting, every hash of `recs` is present, and every hash that was
      present still is. */
  lemma {:induction false} IngestCovers(rs: seq<Record>, recs: seq<Record>)
    ensures forall r :: r in recs ==> HasHash(Ingest(rs, recs), r.transactionHash)
    ensures forall h :: HasHash(rs, h) ==> HasHash(Ingest(rs, recs), h)
  {
    if recs != [] {
      var init, last := recs[..|recs| - 1], recs[|recs| - 1];
      IngestCovers(rs, init);
      var mid := Ingest(rs, init);
      var out := Ingest(rs, recs);
      assert out == InsertIfAbsent(mid, last);
      var more := if HasHash(mid, last.transactionHash) then [] else [last];
      assert out == mid + more;
      forall h | HasHash(mid, h)
        ensures HasHash(out, h)
      {
        HasHashGrows(mid, more, h);
      }
      if !HasHash(mid, last.transactionHash) {
        assert out[|mid|] == last;
      }
      forall r | r in recs
        ensures HasHash(out, r.transactionHash)
      {
        if r != last {
          assert r in init by {
            var k :| 0 <= k < |recs| && recs[k] == r;
            assert k < |recs| - 1 && init[k] == r;
          }
        }
      }
    }
  }

  /** Ingesting records whose hashes are all present changes nothing. */
  lemma {:induction false} IngestPresentIsNoop(rs: seq<Record>, recs: seq<Record>)
    requires forall r :: r in recs ==> HasHash(rs, r.transactionHash)
    ensures Ingest(rs, recs) == rs
  {
    if recs != [] {
      var init := recs[..|recs| - 1];
      assert forall r :: r in init ==> r in recs;
      IngestPresentIsNoop(rs, init);
      assert recs[|recs| - 1] in recs;
    }
  }

  /** Re-ingesting the same logs leaves the collection unchanged. */
  lemma IngestIdempotent(rs: seq<Record>, recs: seq<Record>)
    ensures Ingest(Ingest(rs, recs), recs) == Ingest(rs, recs)
  {
    IngestCovers(rs, recs);
    IngestPresentIsNoop(Ingest(rs, recs), recs);
  }

  /** Ingesting two batches one after the other is ingesting their concatenation. */
  lemma {:induction false} IngestAppend(rs: seq<Record>, a: seq<Record>, b: seq<Record>)
    ensures Ingest(rs, a + b) == Ingest(Ingest(rs, a), b)
  {
    if b == [] {
      assert a + b == a;
    } else {
      var init := b[..|b| - 1];
      IngestAppend(rs, a, init);
      assert (a + b)[..|a + b| - 1] == a + init;
      assert (a + b)[|a + b| - 1] == b[|b| - 1];
    }
  }

  /** The guarded insert never creates a second document with the same hash. */
  lemma {:induction false} IngestKeepsUnique(rs: seq<Record>, recs: seq<Record>)
    requires UniqueHashes(rs)
    ensures UniqueHashes(Ingest(rs, recs))
  {
    if recs != [] {
      var init, last := recs[..|recs| - 1], recs[|recs| - 1];
      IngestKeepsUnique(rs, init);
      var mid := Ingest(rs, init);
      if !HasHash(mid, last.transactionHash) {
        var out := mid + [last];
        assert Ingest(rs, recs) == out;
        forall i, j | 0 <= i < j < |out|
          ensures out[i].transactionHash != out[j].transactionHash
        {
          if j == |mid| {
            assert out[i] == mid[i];
          } else {
            assert out[i] == mid[i] && out[j] == mid[j];
          }
        }
      }
    }
  }

  /** Exactly one document carries hash `h`, the one at position `i`. */
  predicate RecordedAt(rs: seq<Record>, h: Option<TxHash>, i: int) {
    0 <= i < |rs| && rs[i].transactionHash == h &&
    forall j :: 0 <= j < |rs| && rs[j].transactionHash == h ==> j == i
  }

  /** Once ingested, the transaction hash of every input document is carried
      by exactly one document. Documents are keyed by hash alone, so a second
      input with a hash already present is not stored. */
  lemma IngestRecordsEachOnce(rs: seq<Record>, recs: seq<Record>)
    requires UniqueHashes(rs)
    ensures forall r :: r in recs ==> exists i :: RecordedAt(Ingest(rs, recs), r.transactionHash, i)
  {
    IngestCovers(rs, recs);
    IngestKeepsUnique(rs, recs);
    var out := Ingest(rs, recs);
    forall r | r in recs
      ensures exists i :: RecordedAt(out, r.transactionHash, i)
    {
      var i :| 0 <= i < |out| && out[i].transactionHash == r.transactionHash;
      assert RecordedAt(out, r.transactionHash, i);
    }
    assert forall r :: r in recs ==> exists i :: RecordedAt(out, r.transactionHash, i);
    assert out == Ingest(rs, recs);
  }

  /** A document with its `processed` and `failed` flags cleared: what a
      queue step never changes. */
  function Strip(r: Record): Record {
    r.(processed := false, failed := false)
  }

  function Stripped(rs: seq<Record>): (out: seq<Record>)
    ensures |out| == |rs| && forall i :: 0 <= i < |rs| ==> out[i] == Strip(rs[i])
  {
    seq(|rs|, i requires 0 <= i < |rs| => Strip(rs[i]))
  }

  /** Clearing the flags keeps every transaction hash where it was. */
  lemma StrippedSameHashes(rs: seq<Record>)
    ensures forall h :: HasHash(Stripped(rs), h) == HasHash(rs, h)
    ensures UniqueHashes(Stripped(rs)) == UniqueHashes(rs)
    ensures forall h, i :: RecordedAt(Stripped(rs), h, i) == RecordedAt(rs, h, i)
  {
    var st := Stripped(rs);
    assert forall i :: 0 <= i < |rs| ==> st[i].transactionHash == rs[i].transactionHash;
  }

  /** The guarded insert of a record without flags commutes with clearing the flags. */
  lemma StrippedInsert(rs: seq<Record>, r: Record)
    requires Strip(r) == r
    ensures Stripped(InsertIfAbsent(rs, r)) == InsertIfAbsent(Stripped(rs), r)
  {
    StrippedSameHashes(rs);
    if !HasHash(rs, r.transactionHash) {
      assert Stripped(rs + [r]) == Stripped(rs) + [r];
    }
  }

  /** Processed documents are kept as they are, and nothing is removed. */
  predicate KeepsProcessed(before: seq<Record>, after: seq<Record>) {
    |before| <= |after| &&
    forall j :: 0 <= j < |before| && before[j].processed ==> after[j] == before[j]
  }

  // ---------------------------------------------------------------------
  // Deduplication by chain, user and amount (the first two drafts)

  /** A document the first drafts' `findOne({chain, user, amount, processed: false})` matches. */
  predicate IsPendingMatch(r: Record, chain: string, user: Address, amount: nat) {
    r.chain == chain && r.user == user && r.amount == amount && !r.processed
  }

  predicate HasPendingMatch(rs: seq<Record>, chain: string, user: Address, amount: nat) {
    exists i :: 0 <= i < |rs| && IsPendingMatch(rs[i], chain, user, amount)
  }

  /** The document the first drafts insert for a lock. */
  function LockRecord(chain: string, user: Address, amount: nat): Record {
    Record(chain, user, amount, None, false, false)
  }

  /** A lock is recorded unless an unprocessed document with the same chain,
      user and amount already exists. */
  function RecordLock(rs: seq<Record>, chain: string, user: Address, amount: nat): (out: seq<Record>)
    ensures HasPendingMatch(out, chain, user, amount)
    ensures |rs| <= |out| <= |rs| + 1 && out[..|rs|] == rs
    ensures HasPendingMatch(rs, chain, user, amount) ==> out == rs
    ensures !HasPendingMatch(rs, chain, user, amount) ==> out == rs + [LockRecord(chain, user, amount)]
  {
    if HasPendingMatch(rs, chain, user, amount) then rs
    else
      var out := rs + [LockRecord(chain, user, amount)];
      assert IsPendingMatch(out[|rs|], chain, user, amount);
      out
  }

  /** A second identical lock is dropped while the first is still pending. */
  lemma RecordLockTwiceIsOnce(rs: seq<Record>, chain: string, user: Address, amount: nat)
    ensures RecordLock(RecordLock(rs, chain, user, amount), chain, user, amount) == RecordLock(rs, chain, user, amount)
    ensures HasPendingMatch(RecordLock(rs, chain, user, amount), chain, user, amount)
  {
    var once := RecordLock(rs, chain, user, amount);
    if !HasPendingMatch(rs, chain, user, amount) {
      assert IsPendingMatch(once[|rs|], chain, user, amount);
    }
  }

  /** Once the pending document has been processed, the same lock is recorded again. */
  lemma RecordLockAgainAfterProcessed(rs: seq<Record>, chain: string, user: Address, amount: nat)
    requires !HasPendingMatch(rs, chain, user, amount)
    ensures var once := RecordLock(rs, chain, user, amount);
            var done := once[|rs| := once[|rs|].(processed := true)];
            RecordLock(done, chain, user, amount) == done + [LockRecord(chain, user, amount)]
  {
    var once := RecordLock(rs, chain, user, amount);
    var done := once[|rs| := once[|rs|].(processed := true)];
    assert done == rs + [LockRecord(chain, user, amount).(processed := true)];
  }

  /** Two separate locks of the same amount by the same user on the same
      chain, the second seen before the first is processed, leave a single
      document: only one of the two is ever minted. */
  lemma SecondIdenticalLockDropped(chain: string, user: Address, amount: nat)
    ensures RecordLock([], chain, user, amount) == [LockRecord(chain, user, amount)]
    ensures RecordLock(RecordLock([], chain, user, amount), chain, user, amount) == [LockRecord(chain, user, amount)]
  {
    var once := [LockRecord(chain, user, amount)];
    assert IsPendingMatch(once[0], chain, user, amount);
  }

  /** Keyed by transaction hash, two locks with the same chain, user and
      amount from different transactions are both recorded, in order. */
  lemma DistinctLocksBothRecorded(a: Record, b: Record)
    requires a.transactionHash != b.transactionHash
    ensures Ingest([], [a, b]) == [a, b]
  {
    assert [a, b][..1] == [a];
    assert [a][..0] == [];
    assert Ingest([], [a]) == [a];
  }

  // ---------------------------------------------------------------------
  // One queue step

  /** The effect of one `processQueue` step on the collection: the first
      unprocessed document is picked; a successful mint sets `processed`, a
      failed one sets `failed` when `markFailed` (drafts three and four) and
      changes nothing otherwise (drafts one and two). */
  function QueueStep(rs: seq<Record>, success: bool, markFailed: bool): (out: seq<Record>)
    ensures |out| == |rs|
    ensures forall j :: 0 <= j < |rs| && rs[j].processed ==> out[j] == rs[j]
    ensures FirstMatch(rs, Unprocessed).Some? ==> out[FirstMatch(rs, Unprocessed).value].processed == success
  {
    match FirstMatch(rs, Unprocessed)
    case None => rs
    case Some(i) =>
      if success then rs[i := rs[i].(processed := true)]
      else if markFailed then rs[i := rs[i].(failed := true)]
      else rs
  }

  /** A queue step touches only the document it picked, never a processed one,
      and only its flags. */
  lemma QueueStepFrame(rs: seq<Record>, success: bool, markFailed: bool)
    ensures |QueueStep(rs, success, markFailed)| == |rs|
    ensures forall j :: 0 <= j < |rs| && QueueStep(rs, success, markFailed)[j] != rs[j] ==>
      FirstMatch(rs, Unprocessed) == Some(j) && !rs[j].processed
    ensures forall j :: 0 <= j < |rs| ==>
      var r := QueueStep(rs, success, markFailed)[j];
      r.chain == rs[j].chain && r.user == rs[j].user && r.amount == rs[j].amount &&
      r.transactionHash == rs[j].transactionHash &&
      (rs[j].processed ==> r.processed) && (rs[j].failed ==> r.failed)
  {
  }

  /** A queue step changes flags only: the collection with its flags cleared
      is the same before and after, and no processed document changes. */
  lemma QueueStepKeepsStripped(rs: seq<Record>, success: bool, markFailed: bool)
    ensures Stripped(QueueStep(rs, success, markFailed)) == Stripped(rs)
    ensures KeepsProcessed(rs, QueueStep(rs, success, markFailed))
  {
    QueueStepFrame(rs, success, markFailed);
    var out := QueueStep(rs, success, markFailed);
    assert forall j :: 0 <= j < |rs| ==> Strip(out[j]) == Strip(rs[j]);
  }

  /** The collection after consecutive queue steps with the given mint results. */
  function QueueRun(rs: seq<Record>, results: seq<bool>, markFailed: bool): seq<Record>
    decreases |results|
  {
    if results == [] then rs
    else QueueRun(QueueStep(rs, results[0], markFailed), results[1..], markFailed)
  }

  /** No double mint: however many queue steps run, a processed document is
      never picked again and never changes. */
  lemma {:induction false} ProcessedNeverReselected(rs: seq<Record>, results: seq<bool>, markFailed: bool)
    ensures |QueueRun(rs, results, markFailed)| == |rs|
    ensures forall j :: 0 <= j < |rs| && rs[j].processed ==> QueueRun(rs, results, markFailed)[j] == rs[j]
    decreases |results|
  {
    if results != [] {
      var next := QueueStep(rs, results[0], markFailed);
      QueueStepFrame(rs, results[0], markFailed);
      ProcessedNeverReselected(next, results[1..], markFailed);
      forall j | 0 <= j < |rs| && rs[j].processed
        ensures QueueRun(rs, results, markFailed)[j] == rs[j]
      {
        assert next[j] == rs[j];
      }
    }
  }

  /** As the drafts that mark failures write it, a failed document keeps
      `processed == false`, so the very next step picks it again. */
  lemma FailedRecordReselected(rs: seq<Record>, i: nat)
    requires FirstMatch(rs, Unprocessed) == Some(i)
    ensures QueueStep(rs, false, true)[i].failed
    ensures FirstMatch(QueueStep(rs, false, true), Unprocessed) == Some(i)
  {
    var out := QueueStep(rs, false, true);
    assert out == rs[i := rs[i].(failed := true)];
    assert forall j :: 0 <= j < |rs| ==> Unprocessed(out[j]) == Unprocessed(rs[j]);
    assert Unprocessed(out[i]);
  }

  /** A concrete run: a lock whose first queue step fails is picked again and,
      when that second mint succeeds, ends up both processed and failed. */
  lemma FailedThenProcessed()
    ensures var rs := [Record("geth", "0xabc", 1000, Some("0x01"), false, false)];
            QueueStep(QueueStep(rs, false, true), true, true) ==
              [Record("geth", "0xabc", 1000, Some("0x01"), true, true)]
  {
    var rs := [Record("geth", "0xabc", 1000, Some("0x01"), false, false)];
    assert FirstMatch(rs, Unprocessed) == Some(0);
    var once := QueueStep(rs, false, true);
    assert once == [Record("geth", "0xabc", 1000, Some("0x01"), false, true)];
    assert FirstMatch(once, Unprocessed) == Some(0);
  }

  /** A queue step that treats `failed` as terminal: it picks the first
      document that is neither processed nor failed. */
  function TerminalQueueStep(rs: seq<Record>, success: bool): (out: seq<Record>)
    ensures |out| == |rs|
    ensures FirstMatch(rs, Pending).Some? ==>
      out[FirstMatch(rs, Pending).value].processed == success &&
      out[FirstMatch(rs, Pending).value].failed == !success
  {
    match FirstMatch(rs, Pending)
    case None => rs
    case Some(i) =>
      if success then rs[i := rs[i].(processed := true)]
      else rs[i := rs[i].(failed := true)]
  }

  /** With terminal failures, processed and failed documents never change, no
      document carries both flags, and a document that just failed is not
      picked again. */
  lemma TerminalQueueStepIsFinal(rs: seq<Record>, success: bool)
    ensures |TerminalQueueStep(rs, success)| == |rs|
    ensures forall j :: 0 <= j < |rs| && (rs[j].processed || rs[j].failed) ==>
      TerminalQueueStep(rs, success)[j] == rs[j]
    ensures (forall j :: 0 <= j < |rs| ==> !(rs[j].processed && rs[j].failed)) ==>
      forall j :: 0 <= j < |rs| ==>
        !(TerminalQueueStep(rs, success)[j].processed && TerminalQueueStep(rs, success)[j].failed)
    ensures FirstMatch(rs, Pending).Some? ==>
      FirstMatch(TerminalQueueStep(rs, success), Pending) != FirstMatch(rs, Pending)
  {
  }
}

=== FILE: mint_retry.dfy ===
/** The bounded retry of a mint submission shared by the last three drafts:
    `processEvent(event, retryCount)` gives up once `retryCount > MAX_RETRIES`,
    and otherwise estimates gas, sends the mint, and on any error sleeps for a
    fixed delay and calls itself with `retryCount + 1`. The chain's answers to
    the successive attempts are an input sequence. */
module MintRetry {

  const MaxRetries: nat := 3

  /** How one attempt ended: gas estimation threw, the send threw, or the
      mint was mined. */
  datatype AttemptResult = EstimateFailed | SendFailed | Minted

  /** What a call of processEvent amounts to: its boolean result, how many
      attempts it made and how long it slept between them. */
  datatype Outcome = Outcome(success: bool, attempts: nat, waitedMs: nat)

  /** `processEvent(event, retryCount)` as the drafts write it, by recursion
      on `retryCount`; `results[k]` is how attempt `k` ends. */
  function RetryFrom(results: seq<AttemptResult>, retryCount: nat, delayMs: nat): (o: Outcome)
    requires |results| == MaxRetries + 1
    ensures o.success <==> exists k :: retryCount <= k < |results| && results[k] == Minted
    ensures retryCount <= |results| ==> o.attempts <= |results| - retryCount
    ensures o.waitedMs == (if o.success then o.attempts - 1 else o.attempts) * delayMs
    decreases MaxRetries + 1 - retryCount
  {
    if retryCount > MaxRetries then Outcome(false, 0, 0)
    else if results[retryCount] == Minted then Outcome(true, 1, 0)
    else
      var rest := RetryFrom(results, retryCount + 1, delayMs);
      Outcome(rest.success, rest.attempts + 1, rest.waitedMs + delayMs)
  }

  /** The retry written as a bounded loop with an explicit counter. It makes
      at most MaxRetries + 1 attempts and succeeds exactly when one of them
      mints; it stops at the first success, every earlier attempt having
      failed; when all fail it makes exactly MaxRetries + 1 attempts, and it
      sleeps once after every failed attempt. */
  method Submit(results: seq<AttemptResult>, delayMs: nat) returns (o: Outcome)
    requires |results| == MaxRetries + 1
    ensures o == RetryFrom(results, 0, delayMs)
    ensures 1 <= o.attempts <= MaxRetries + 1
    ensures o.success <==> Minted in results
    ensures o.success ==> results[o.attempts - 1] == Minted
    ensures forall k :: 0 <= k < o.attempts - 1 ==> results[k] != Minted
    ensures !o.success ==> o.attempts == MaxRetries + 1
    ensures o.waitedMs == (if o.success then o.attempts - 1 else o.attempts) * delayMs
  {
    var retryCount: nat := 0;
    var waited: nat := 0;
    while retryCount <= MaxRetries && results[retryCount] != Minted
      invariant retryCount <= MaxRetries + 1
      invariant forall k :: 0 <= k < retryCount ==> results[k] != Minted
      invariant waited == retryCount * delayMs
      invariant var rest := RetryFrom(results, retryCount, delayMs);
        RetryFrom(results, 0, delayMs) ==
          Outcome(rest.success, rest.attempts + retryCount, rest.waitedMs + waited)
    {
      waited := waited + delayMs;
      retryCount := retryCount + 1;
    }
    if retryCount > MaxRetries {
      o := Outcome(false, retryCount, waited);
    } else {
      o := Outcome(true, retryCount + 1, waited);
    }
  }

  /** Both ways an attempt can fail reach the same catch block: whether gas
      estimation or the send threw makes no difference to the outcome. */
  lemma {:induction false} FailureKindIrrelevant(results: seq<AttemptResult>, k: nat, retryCount: nat, delayMs: nat)
    requires |results| == MaxRetries + 1 && k < |results|
    ensures RetryFrom(results[k := EstimateFailed], retryCount, delayMs) ==
            RetryFrom(results[k := SendFailed], retryCount, delayMs)
    decreases MaxRetries + 1 - retryCount
  {
    if retryCount <= MaxRetries {
      FailureKindIrrelevant(results, k, retryCount + 1, delayMs);
    }
  }

  /** After the first successful attempt nothing more is tried: the answers
      the chain would have given to later attempts do not matter. */
  lemma {:induction false} NoAttemptAfterSuccess(a: seq<AttemptResult>, b: seq<AttemptResult>, k: nat, retryCount: nat, delayMs: nat)
    requires |a| == |b| == MaxRetries + 1 && retryCount <= k < |a|
    requires a[k] == Minted && a[..k + 1] == b[..k + 1]
    ensures RetryFrom(a, retryCount, delayMs) == RetryFrom(b, retryCount, delayMs)
    decreases MaxRetries + 1 - retryCount
  {
    assert a[retryCount] == a[..k + 1][retryCount] == b[..k + 1][retryCount] == b[retryCount];
    if retryCount < k {
      NoAttemptAfterSuccess(a, b, k, retryCount + 1, delayMs);
    }
  }
}

=== FILE: range_plan.dfy ===
/** The block ranges the backfill loop of offchainService4.js queries: starting
    at `fromBlock`, consecutive sub-ranges `[from, min(from + step - 1, head)]`
    with `from` advancing by `step`, until `from` passes `head`. */
module RangePlan {
  import opened Bridge

  function Min(a: int, b: int): int {
    if a <= b then a else b
  }

  /** The sub-ranges queried, in order, by a backfill from `fromBlock` to `head`. */
  function Ranges(fromBlock: nat, head: nat, step: nat): seq<Range>
    requires step > 0
    decreases head + 1 - fromBlock
  {
    if fromBlock > head then []
    else [Range(fromBlock, Min(fromBlock + step - 1, head))] + Ranges(fromBlock + step, head, step)
  }

  /** Midway through the plan: the ranges queried so far, the next range and
      the rest of the plan make up the whole plan. */
  lemma RangesNext(done: seq<Range>, start: nat, fromBlock: nat, head: nat, step: nat)
    requires step > 0 && fromBlock <= head
    requires done + Ranges(fromBlock, head, step) == Ranges(start, head, step)
    ensures (done + [Range(fromBlock, Min(fromBlock + step - 1, head))]) + Ranges(fromBlock + step, head, step) ==
      Ranges(start, head, step)
  {
    var rest := Ranges(fromBlock + step, head, step);
    var r := Range(fromBlock, Min(fromBlock + step - 1, head));
    assert Ranges(fromBlock, head, step) == [r] + rest;
    assert (done + [r]) + rest == done + ([r] + rest);
  }

  /** Every sub-range lies in `[fromBlock, head]`, is non-empty and holds at
      most `step` blocks. */
  lemma {:induction false} RangesWellFormed(fromBlock: nat, head: nat, step: nat)
    requires step > 0
    ensures forall r :: r in Ranges(fromBlock, head, step) ==>
      fromBlock <= r.fromBlock <= r.toBlock <= head && r.toBlock - r.fromBlock < step
    decreases head + 1 - fromBlock
  {
    if fromBlock <= head {
      RangesWellFormed(fromBlock + step, head, step);
    }
  }

  /** The sub-ranges are contiguous: the first starts at `fromBlock`, each
      next one starts right after the previous one ends, `step` blocks after
      it started, and the last ends at `head`. */
  lemma {:induction false} RangesContiguous(fromBlock: nat, head: nat, step: nat)
    requires step > 0
    ensures var rs := Ranges(fromBlock, head, step);
      (|rs| == 0 <==> fromBlock > head) &&
      (|rs| > 0 ==> rs[0].fromBlock == fromBlock && rs[|rs| - 1].toBlock == head) &&
      forall i :: 0 <= i < |rs| - 1 ==>
        rs[i + 1].fromBlock == rs[i].toBlock + 1 && rs[i + 1].fromBlock == rs[i].fromBlock + step
    decreases head + 1 - fromBlock
  {
    if fromBlock <= head {
      var rs := Ranges(fromBlock, head, step);
      var rest := Ranges(fromBlock + step, head, step);
      RangesContiguous(fromBlock + step, head, step);
      assert rs == [rs[0]] + rest;
      if rest != [] {
        assert rs[0].toBlock == fromBlock + step - 1;
      }
      forall i | 0 <= i < |rs| - 1
        ensures rs[i + 1].fromBlock == rs[i].toBlock + 1 && rs[i + 1].fromBlock == rs[i].fromBlock + step
      {
        if i > 0 {
          assert rs[i] == rest[i - 1] && rs[i + 1] == rest[i];
        }
      }
    }
  }

  /** An earlier range ends before a later one starts. */
  predicate PairwiseDisjoint(rs: seq<Range>) {
    forall i, j :: 0 <= i < j < |rs| ==> rs[i].toBlock < rs[j].fromBlock
  }

  /** Block `b` lies in one of the ranges. */
  predicate InSomeRange(rs: seq<Range>, b: nat) {
    exists i :: 0 <= i < |rs| && rs[i].fromBlock <= b <= rs[i].toBlock
  }

  /** Sub-ranges are pairwise disjoint: no block is queried twice. */
  lemma {:induction false} RangesDisjoint(fromBlock: nat, head: nat, step: nat)
    requires step > 0
    ensures PairwiseDisjoint(Ranges(fromBlock, head, step))
    decreases head + 1 - fromBlock
  {
    if fromBlock <= head {
      var rs := Ranges(fromBlock, head, step);
      var rest := Ranges(fromBlock + step, head, step);
      RangesDisjoint(fromBlock + step, head, step);
      RangesWellFormed(fromBlock + step, head, step);
      assert rs == [Range(fromBlock, Min(fromBlock + step - 1, head))] + rest;
      forall i, j | 0 <= i < j < |rs|
        ensures rs[i].toBlock < rs[j].fromBlock
      {
        assert rs[j] == rest[j - 1];
        assert rest[j - 1] in rest;
        if i > 0 {
          assert rs[i] == rest[i - 1];
        }
      }
    }
  }

  /** The sub-ranges cover exactly `[fromBlock, head]`: a block lies in one of
      them if and only if it lies in that interval, so no block is skipped. */
  lemma {:induction false} RangesCover(fromBlock: nat, head: nat, step: nat, b: nat)
    requires step > 0
    ensures (fromBlock <= b <= head) <==> InSomeRange(Ranges(fromBlock, head, step), b)
    decreases head + 1 - fromBlock
  {
    var rs := Ranges(fromBlock, head, step);
    if fromBlock <= head {
      var rest := Ranges(fromBlock + step, head, step);
      assert rs == [Range(fromBlock, Min(fromBlock + step - 1, head))] + rest;
      RangesCover(fromBlock + step, head, step, b);
      if fromBlock <= b <= head {
        if b <= rs[0].toBlock {
          assert rs[0].fromBlock <= b <= rs[0].toBlock;
        } else {
          var k :| 0 <= k < |rest| && rest[k].fromBlock <= b <= rest[k].toBlock;
          assert rs[k + 1] == rest[k];
        }
      }
    }
  }

  /** There are `ceil((head - fromBlock + 1) / step)` sub-ranges, none when
      `fromBlock > head`. */
  lemma RangesCount(fromBlock: nat, head: nat, step: nat)
    requires step > 0
    ensures |Ranges(fromBlock, head, step)| ==
      if fromBlock > head then 0 else (head - fromBlock + step) / step
  {
    if fromBlock <= head {
      var m := |Ranges(fromBlock, head, step)|;
      RangesCountBounds(fromBlock, head, step);
      DivUnique(head - fromBlock + step, step, m);
    }
  }

  /** The number of sub-ranges `m` is the one with `(m - 1) * step <= head - fromBlock < m * step`. */
  lemma {:induction false} RangesCountBounds(fromBlock: nat, head: nat, step: nat)
    requires step > 0
    ensures fromBlock > head ==> |Ranges(fromBlock, head, step)| == 0
    ensures fromBlock <= head ==>
      var m := |Ranges(fromBlock, head, step)|;
      (m - 1) * step <= head - fromBlock < m * step
    decreases head + 1 - fromBlock
  {
    if fromBlock <= head {
      var m := |Ranges(fromBlock + step, head, step)|;
      RangesCountBounds(fromBlock + step, head, step);
      assert |Ranges(fromBlock, head, step)| == m + 1;
      assert (m + 1) * step == m * step + step;
      assert (m - 1) * step == m * step - step;
    }
  }

  lemma DivUnique(n: int, d: int, m: int)
    requires 0 < d && m * d <= n < (m + 1) * d
    ensures n / d == m
  {
    var q := n / d;
    assert q * d <= n < q * d + d;
    assert q < m ==> (q + 1) * d <= m * d;
    assert q > m ==> (m + 1) * d <= q * d;
  }

  /** A BSC backfill from block 0 to head 2499 queries exactly three ranges. */
  lemma BscBackfillExample()
    ensures Ranges(0, 2499, 1000) == [Range(0, 999), Range(1000, 1999), Range(2000, 2499)]
  {
    assert Ranges(3000, 2499, 1000) == [];
    assert Ranges(2000, 2499, 1000) == [Range(2000, 2499)];
    assert Ranges(1000, 2499, 1000) == [Range(1000, 1999), Range(2000, 2499)];
  }
}

=== FILE: retry_queue.dfy ===
/** The retrying `processEvent`, written identically in offchainService3.js,
    offchainService4.js and offchainService5.js except for the pause between
    attempts (ten seconds in the third and fifth drafts, one second in the
    fourth), and the `processQueue` that records failures, written identically
    in offchainService3.js and offchainService4.js. The fifth draft defines no
    `processQueue`. */
module RetryQueue {
  import opened Bridge
  import opened EventStore
  import opened MintRetry

  /** The chain's answers to the mint attempts of successive queue steps:
      `mint(k)[a]` is how attempt `a` of the `k`-th queue step ends, whichever
      document that step picks. A document picked again by a later step gets
      that step's answers. */
  ghost predicate Answers(mint: nat -> seq<AttemptResult>) {
    forall k :: |mint(k)| == MaxRetries + 1
  }

  /** `processEvent(event)`: a `"geth"` record is minted on the BSC token and
      any other on the Geth token, for the record's own user and amount, from
      the account of the record's chain with the estimated gas; the mint is
      retried until it succeeds or MaxRetries + 1 attempts have failed, with a
      pause of `delayMs` after each failure. */
  method ProcessEvent(event: Record, results: seq<AttemptResult>, delayMs: nat) returns (call: MintCall, o: Outcome)
    requires |results| == MaxRetries + 1
    ensures (call.token == Bsc) == (event.chain == "geth")
    ensures call.recipient == event.user && call.amount == event.amount
    ensures call.from == SigningAccount(event.chain) && call.gas == Estimated
    ensures o == RetryFrom(results, 0, delayMs)
    ensures o.success <==> Minted in results
    ensures !o.success ==> o.attempts == MaxRetries + 1 && o.waitedMs == (MaxRetries + 1) * delayMs
  {
    call := MintCall(Destination(event.chain), SigningAccount(event.chain), event.user, event.amount, Estimated);
    o := Submit(results, delayMs);
  }

  /** One `processQueue` step as written: the first unprocessed document is
      minted with the retry, on the other network's token for its user and
      amount; success sets `processed`, failure sets `failed` and leaves
      `processed` false; with no unprocessed document nothing changes.
      `results` are the chain's answers to this step's attempts. */
  method ProcessQueue(store: Collection, results: seq<AttemptResult>, delayMs: nat)
    returns (picked: Option<nat>, minted: Option<MintCall>, outcome: Option<Outcome>)
    requires |results| == MaxRetries + 1
    modifies store
    ensures picked == FirstMatch(old(store.records), Unprocessed)
    ensures outcome.Some? <==> picked.Some?
    ensures outcome.Some? ==> outcome.value == RetryFrom(results, 0, delayMs)
    ensures minted.Some? <==> picked.Some? && Minted in results
    ensures minted.Some? ==> outcome.Some? && outcome.value.success
    ensures minted.Some? ==>
      var event := old(store.records)[picked.value];
      minted.value.token == Destination(event.chain) && minted.value.from == SigningAccount(event.chain) &&
      minted.value.recipient == event.user && minted.value.amount == event.amount
    ensures store.records == QueueStep(old(store.records), minted.Some?, true)
  {
    picked := FirstMatch(store.records, Unprocessed);
    minted := None;
    outcome := None;
    if picked.Some? {
      var call, o := ProcessEvent(store.records[picked.value], results, delayMs);
      outcome := Some(o);
      if o.success {
        minted := Some(call);
        store.SetProcessed(picked.value);
      } else {
        store.SetFailed(picked.value);
      }
    }
  }

  /** The queue step with `failed` treated as terminal: it picks the first
      document that is neither processed nor failed. */
  method ProcessQueueTerminal(store: Collection, results: seq<AttemptResult>, delayMs: nat)
    returns (picked: Option<nat>, minted: Option<MintCall>, outcome: Option<Outcome>)
    requires |results| == MaxRetries + 1
    modifies store
    ensures picked == FirstMatch(old(store.records), Pending)
    ensures outcome.Some? <==> picked.Some?
    ensures outcome.Some? ==> outcome.value == RetryFrom(results, 0, delayMs)
    ensures minted.Some? <==> picked.Some? && Minted in results
    ensures minted.Some? ==>
      var event := old(store.records)[picked.value];
      minted.value.token == Destination(event.chain) && minted.value.from == SigningAccount(event.chain) &&
      minted.value.recipient == event.user && minted.value.amount == event.amount
    ensures store.records == TerminalQueueStep(old(store.records), minted.Some?)
  {
    picked := FirstMatch(store.records, Pending);
    minted := None;
    outcome := None;
    if picked.Some? {
      var call, o := ProcessEvent(store.records[picked.value], results, delayMs);
      outcome := Some(o);
      if o.success {
        minted := Some(call);
        store.SetProcessed(picked.value);
      } else {
        store.SetFailed(picked.value);
      }
    }
  }
}

=== FILE: service1.dfy ===
/** offchainService.js: one account signs on both chains, a mint is sent once
    with a fixed gas allowance, a failed mint only pauses the queue, and the
    lock listeners deduplicate by chain, user and amount among the documents
    not yet processed. */
module Service1 {
  import opened Bridge
  import opened EventStore

  const FixedGas: nat := 100000
  const FailurePauseMs: nat := 10000

  /** `processEvent(event)`: a `"geth"` record is minted on the BSC token and
      any other on the Geth token, for the record's user and amount, from the
      shared account with 100000 gas; the result is whether the send went
      through. */
  method ProcessEvent(event: Record, sendOk: bool) returns (call: MintCall, success: bool)
    ensures (call.token == Bsc) == (event.chain == "geth")
    ensures call.recipient == event.user && call.amount == event.amount
    ensures call.from == SharedAccount && call.gas == Fixed(FixedGas)
    ensures success == sendOk
  {
    call := MintCall(Destination(event.chain), SharedAccount, event.user, event.amount, Fixed(FixedGas));
    success := sendOk;
  }

  /** One `processQueue` step: the first unprocessed document is minted;
      success sets `processed`, failure changes nothing and pauses ten seconds,
      so the same document is picked again by the next step. `sendOk` is
      whether this step's send goes through. */
  method ProcessQueue(store: Collection, sendOk: bool)
    returns (picked: Option<nat>, minted: Option<MintCall>, waitedMs: nat)
    modifies store
    ensures picked == FirstMatch(old(store.records), Unprocessed)
    ensures minted.Some? <==> picked.Some? && sendOk
    ensures minted.Some? ==>
      minted.value.token == Destination(old(store.records)[picked.value].chain) &&
      minted.value.recipient == old(store.records)[picked.value].user &&
      minted.value.amount == old(store.records)[picked.value].amount
    ensures waitedMs == if picked.Some? && minted.None? then FailurePauseMs else 0
    ensures store.records == QueueStep(old(store.records), minted.Some?, false)
  {
    picked := FirstMatch(store.records, Unprocessed);
    minted := None;
    waitedMs := 0;
    if picked.Some? {
      var call, success := ProcessEvent(store.records[picked.value], sendOk);
      if success {
        minted := Some(call);
        store.SetProcessed(picked.value);
      } else {
        waitedMs := FailurePauseMs;
      }
    }
  }

  /** A failed mint in this draft leaves the collection as it was, so the
      next step retries the same document. */
  lemma FailedMintRetried(rs: seq<Record>)
    ensures QueueStep(rs, false, false) == rs
    ensures FirstMatch(QueueStep(rs, false, false), Unprocessed) == FirstMatch(rs, Unprocessed)
  {
  }

  /** The TokensLocked listener of `network`, the same in offchainService.js and
      offchainService2.js: an error returns at once; otherwise the lock is
      recorded under the network's tag unless an unprocessed document with the
      same chain, user and amount exists. */
  method OnTokensLocked(store: Collection, network: Network, ev: Option<LockValues>)
    modifies store
    ensures ev.None? ==> store.records == old(store.records)
    ensures ev.Some? ==>
      store.records == RecordLock(old(store.records), Tag(network), ev.value.user, ev.value.amount)
  {
    if ev.Some? {
      var chain := Tag(network);
      var found := FirstMatch(store.records, r => IsPendingMatch(r, chain, ev.value.user, ev.value.amount));
      if found.None? {
        store.InsertOne(LockRecord(chain, ev.value.user, ev.value.amount));
      } else {
        assert IsPendingMatch(store.records[found.value], chain, ev.value.user, ev.value.amount);
      }
    }
  }

  /** A lock seen on one network is recorded under that network's tag and
      minted on the other network's token, for the locking user and amount. */
  lemma LockMintedOnOtherNetwork(rs: seq<Record>, network: Network, user: Address, amount: nat)
    requires !HasPendingMatch(rs, Tag(network), user, amount)
    ensures var out := RecordLock(rs, Tag(network), user, amount);
      |out| == |rs| + 1 && out[|rs|].chain == Tag(network) &&
      out[|rs|].user == user && out[|rs|].amount == amount &&
      Destination(out[|rs|].chain) == Opposite(network)
  {
    DestinationIsOpposite(network);
  }

  /** `startListening`: both bridges are asked for their latest locks, only to
      log them; when both answers arrive one queue step runs, and when either
      query throws the error is caught and nothing changes. Start-up never
      inserts: only flags change. */
  method StartListening(store: Collection, pastEvents: Network -> Option<seq<Log>>, sendOk: bool)
    returns (queried: seq<Network>, started: bool, minted: Option<MintCall>)
    modifies store
    ensures queried == if pastEvents(Geth).None? then [Geth] else [Geth, Bsc]
    ensures started <==> pastEvents(Geth).Some? && pastEvents(Bsc).Some?
    ensures !started ==> minted.None? && store.records == old(store.records)
    ensures started ==> store.records == QueueStep(old(store.records), minted.Some?, false)
    ensures minted.Some? <==> started && FirstMatch(old(store.records), Unprocessed).Some? && sendOk
    ensures minted.Some? ==>
      var event := old(store.records)[FirstMatch(old(store.records), Unprocessed).value];
      minted.value.token == Destination(event.chain) &&
      minted.value.recipient == event.user && minted.value.amount == event.amount
    ensures Stripped(store.records) == Stripped(old(store.records))
  {
    minted := None;
    started := false;
    queried := [Geth];
    if pastEvents(Geth).Some? {
      queried := queried + [Bsc];
      if pastEvents(Bsc).Some? {
        started := true;
        var _, m, _ := ProcessQueue(store, sendOk);
        minted := m;
        QueueStepKeepsStripped(old(store.records), minted.Some?, false);
      }
    }
  }
}

=== FILE: service2.dfy ===
/** offchainService2.js: an account is registered with each chain's client
    (both from the same private key), but the mint still names the single
    `account` of the first draft, which this file never declares; the lock
    listeners are those of offchainService.js (Service1.OnTokensLocked). */
module Service2 {
  import opened Bridge
  import opened EventStore
  import Service1

  /** `processEvent(event)` as written: building the send options reads the
      undeclared `account`, which throws a ReferenceError inside the `try`;
      the catch returns false, so no mint is ever sent and the call always
      fails. */
  method ProcessEvent(event: Record) returns (sent: Option<MintCall>, success: bool)
    ensures sent.None? && !success
  {
    sent := None;
    success := false;
  }

  /** `processEvent(event)` as evidently intended: the mint is sent from the
      account of the record's own chain, with 100000 gas, to the record's user
      for its amount on the other network's token, and succeeds when the send
      goes through. */
  method ProcessEventIntended(event: Record, sendOk: bool) returns (call: MintCall, success: bool)
    ensures (call.token == Bsc) == (event.chain == "geth")
    ensures call.recipient == event.user && call.amount == event.amount
    ensures call.from == SigningAccount(event.chain) && call.gas == Fixed(Service1.FixedGas)
    ensures success == sendOk
  {
    call := MintCall(Destination(event.chain), SigningAccount(event.chain), event.user, event.amount, Fixed(Service1.FixedGas));
    success := sendOk;
  }

  /** The intended sender is the account registered for the chain the lock
      was seen on: a lock recorded by the listener of `n` is minted from `n`'s
      account on the other network's token. Both accounts come from the same
      private key, so the sending address is the same either way. */
  lemma IntendedSenderIsLockChain(n: Network)
    ensures SigningAccount(Tag(n)) == AccountOf(n)
    ensures Destination(Tag(n)) == Opposite(n)
  {
    DestinationIsOpposite(n);
  }

  /** One `processQueue` step as written: the first unprocessed document is
      picked, its mint always fails, and the step only pauses ten seconds; the
      collection never changes, so the same document is picked forever. */
  method ProcessQueue(store: Collection) returns (picked: Option<nat>, waitedMs: nat)
    modifies store
    ensures picked == FirstMatch(old(store.records), Unprocessed)
    ensures waitedMs == if picked.Some? then Service1.FailurePauseMs else 0
    ensures store.records == old(store.records) == QueueStep(old(store.records), false, false)
  {
    picked := FirstMatch(store.records, Unprocessed);
    waitedMs := 0;
    if picked.Some? {
      // The mint always fails, so the branch that sets `processed` is dead.
      var _, _ := ProcessEvent(store.records[picked.value]);
      waitedMs := Service1.FailurePauseMs;
    }
  }

  /** `startListening`: as in offchainService.js, both bridges are asked for
      their latest locks and one queue step runs when both answers arrive. */
  method StartListening(store: Collection, pastEvents: Network -> Option<seq<Log>>)
    returns (queried: seq<Network>, started: bool)
    modifies store
    ensures queried == if pastEvents(Geth).None? then [Geth] else [Geth, Bsc]
    ensures started <==> pastEvents(Geth).Some? && pastEvents(Bsc).Some?
    ensures store.records == old(store.records)
  {
    started := false;
    queried := [Geth];
    if pastEvents(Geth).Some? {
      queried := queried + [Bsc];
      if pastEvents(Bsc).Some? {
        started := true;
        var _, _ := ProcessQueue(store);
      }
    }
  }
}

=== FILE: service3.dfy ===
/** offchainService3.js: the retrying mint with a ten-second pause and the
    queue step that records failures (both in RetryQueue); at start-up it asks
    each bridge for all its past locks, only to log them, and starts the queue
    when both queries succeed. */
module Service3 {
  import opened Bridge
  import opened EventStore
  import opened MintRetry
  import opened RetryQueue

  const RetryDelayMs: nat := 10000

  /** `startListening`: the Geth bridge is queried first and the BSC bridge
      only if that query did not throw; the logs are not stored. When both
      answers arrive, one queue step runs (the later ones are timers); when
      either query throws, the error is caught and nothing changes. Start-up
      never inserts: only flags change. */
  method StartListening(store: Collection, pastEvents: Network -> Option<seq<Log>>,
                        results: seq<AttemptResult>)
    returns (queried: seq<Network>, started: bool, minted: Option<MintCall>)
    requires |results| == MaxRetries + 1
    modifies store
    ensures queried == if pastEvents(Geth).None? then [Geth] else [Geth, Bsc]
    ensures started <==> pastEvents(Geth).Some? && pastEvents(Bsc).Some?
    ensures !started ==> minted.None? && store.records == old(store.records)
    ensures started ==> store.records == QueueStep(old(store.records), minted.Some?, true)
    ensures minted.Some? <==> started && FirstMatch(old(store.records), Unprocessed).Some? && Minted in results
    ensures minted.Some? ==>
      var event := old(store.records)[FirstMatch(old(store.records), Unprocessed).value];
      minted.value.token == Destination(event.chain) && minted.value.from == SigningAccount(event.chain) &&
      minted.value.recipient == event.user && minted.value.amount == event.amount
    ensures Stripped(store.records) == Stripped(old(store.records))
  {
    minted := None;
    started := false;
    queried := [Geth];
    if pastEvents(Geth).Some? {
      queried := queried + [Bsc];
      if pastEvents(Bsc).Some? {
        started := true;
        var _, m, _ := ProcessQueue(store, results, RetryDelayMs);
        minted := m;
        QueueStepKeepsStripped(old(store.records), minted.Some?, true);
      }
    }
  }
}

=== FILE: service4.dfy ===
/** offchainService4.js: a mint retried with a one-second pause, a queue step
    that marks failures, ingestion deduplicated by transaction hash, a chunked
    backfill from block 0 on each chain (500 blocks per query on Geth, 1000 on
    BSC) and a single-block query for each new block header. */
module Service4 {
  import opened Bridge
  import opened EventStore
  import opened RangePlan
  import opened MintRetry
  import opened RetryQueue

  const RetryDelayMs: nat := 1000
  const StartingBlock: nat := 0
  const GethStep: nat := 500
  const BscStep: nat := 1000

  /** The document inserted for a log: its `_chain`, `_user`, `_amount` and
      transaction hash, neither processed nor failed. */
  function RecordOf(log: Log): (r: Record)
    ensures !r.processed && !r.failed && r.transactionHash == Some(log.transactionHash)
    ensures r.chain == log.chain && r.user == log.user && r.amount == log.amount
  {
    Record(log.chain, log.user, log.amount, Some(log.transactionHash), false, false)
  }

  function RecordsOf(logs: seq<Log>): (recs: seq<Record>)
    ensures |recs| == |logs| && forall i :: 0 <= i < |logs| ==> recs[i] == RecordOf(logs[i])
  {
    seq(|logs|, i requires 0 <= i < |logs| => RecordOf(logs[i]))
  }

  /** The collection and the number of queue steps run so far. */
  datatype Progress = Progress(records: seq<Record>, steps: nat)

  /** The documents of `recs` carry no flags, as every document built from a log. */
  predicate Flagless(recs: seq<Record>) {
    forall r :: r in recs ==> Strip(r) == r
  }

  /** No document is processed after that was not processed before. */
  predicate ProcessedOnlyBefore(before: seq<Record>, after: seq<Record>) {
    forall i :: 0 <= i < |after| && after[i].processed ==> i < |before| && before[i].processed
  }

  /** `processEvents` over a collection `rs` after `k` queue steps: each of
      `recs` is inserted unless a document with its hash exists, and each
      insert is followed by queue step number `k + n`, whose attempts end as
      `mint(k + n)` says. */
  function InsertAndStep(rs: seq<Record>, recs: seq<Record>, mint: nat -> seq<AttemptResult>, k: nat): (p: Progress)
    ensures k <= p.steps && |rs| <= |p.records|
    decreases |recs|
  {
    if recs == [] then Progress(rs, k)
    else
      var p := InsertAndStep(rs, recs[..|recs| - 1], mint, k);
      var rec := recs[|recs| - 1];
      if HasHash(p.records, rec.transactionHash) then p
      else Progress(QueueStep(p.records + [rec], Minted in mint(p.steps), true), p.steps + 1)
  }

  /** Queue steps change flags only: with the flags cleared, the collection is
      that of the guarded inserts alone; no processed document changes, and
      one queue step runs per insert. */
  lemma {:induction false} InsertAndStepStripped(rs: seq<Record>, recs: seq<Record>, mint: nat -> seq<AttemptResult>, k: nat)
    requires Flagless(recs)
    ensures Stripped(InsertAndStep(rs, recs, mint, k).records) == Ingest(Stripped(rs), recs)
    ensures KeepsProcessed(rs, InsertAndStep(rs, recs, mint, k).records)
    ensures InsertAndStep(rs, recs, mint, k).steps == k + |InsertAndStep(rs, recs, mint, k).records| - |rs|
    decreases |recs|
  {
    if recs != [] {
      var init := recs[..|recs| - 1];
      var rec := recs[|recs| - 1];
      assert Flagless(init) by {
        forall r | r in init ensures Strip(r) == r {
          var i :| 0 <= i < |init| && init[i] == r;
          assert recs[i] == r;
        }
      }
      InsertAndStepStripped(rs, init, mint, k);
      var p := InsertAndStep(rs, init, mint, k);
      assert Strip(rec) == rec by { assert rec in recs; }
      StrippedInsert(p.records, rec);
      StrippedSameHashes(p.records);
      if !HasHash(p.records, rec.transactionHash) {
        var q := QueueStep(p.records + [rec], Minted in mint(p.steps), true);
        QueueStepKeepsStripped(p.records + [rec], Minted in mint(p.steps), true);
        assert KeepsProcessed(p.records, p.records + [rec]);
        assert KeepsProcessed(rs, q);
      }
    }
  }

  /** Logs whose hashes are all stored change nothing, flags included, and run
      no queue step. */
  lemma {:induction false} InsertAndStepPresentIsNoop(rs: seq<Record>, recs: seq<Record>, mint: nat -> seq<AttemptResult>, k: nat)
    requires forall r :: r in recs ==> HasHash(rs, r.transactionHash)
    ensures InsertAndStep(rs, recs, mint, k) == Progress(rs, k)
    decreases |recs|
  {
    if recs != [] {
      var init := recs[..|recs| - 1];
      forall r | r in init ensures HasHash(rs, r.transactionHash) {
        var i :| 0 <= i < |init| && init[i] == r;
        assert recs[i] == r;
      }
      InsertAndStepPresentIsNoop(rs, init, mint, k);
      assert recs[|recs| - 1] in recs;
    }
  }

  /** `processEvents` is idempotent: delivering the same logs again, whatever
      the chain answers then, leaves the collection exactly as the first
      delivery left it and runs no queue step. */
  lemma InsertAndStepIdempotent(rs: seq<Record>, logs: seq<Log>, mint: nat -> seq<AttemptResult>, k: nat,
                                again: nat -> seq<AttemptResult>, k': nat)
    ensures InsertAndStep(InsertAndStep(rs, RecordsOf(logs), mint, k).records, RecordsOf(logs), again, k') ==
      Progress(InsertAndStep(rs, RecordsOf(logs), mint, k).records, k')
  {
    var recs := RecordsOf(logs);
    var p := InsertAndStep(rs, recs, mint, k);
    InsertAndStepStripped(rs, recs, mint, k);
    IngestCovers(Stripped(rs), recs);
    StrippedSameHashes(p.records);
    InsertAndStepPresentIsNoop(p.records, recs, again, k');
  }

  /** Processing `a` and then `b` is processing `a + b`, the queue steps
      numbered on from where the first part stopped. */
  lemma {:induction false} InsertAndStepAppend(rs: seq<Record>, a: seq<Record>, b: seq<Record>,
                                               mint: nat -> seq<AttemptResult>, k: nat)
    ensures InsertAndStep(rs, a + b, mint, k) ==
      InsertAndStep(InsertAndStep(rs, a, mint, k).records, b, mint, InsertAndStep(rs, a, mint, k).steps)
    decreases |b|
  {
    if b == [] {
      assert a + b == a;
    } else {
      assert (a + b)[..|a + b| - 1] == a + b[..|b| - 1];
      assert (a + b)[|a + b| - 1] == b[|b| - 1];
      InsertAndStepAppend(rs, a, b[..|b| - 1], mint, k);
    }
  }

  /** Without a successful mint attempt from queue step `k` on, no document
      becomes processed: `processed` is set only by a mint. */
  lemma {:induction false} NoMintNoProcessed(rs: seq<Record>, recs: seq<Record>, mint: nat -> seq<AttemptResult>, k: nat)
    requires Flagless(recs)
    requires forall j :: k <= j ==> Minted !in mint(j)
    ensures ProcessedOnlyBefore(rs, InsertAndStep(rs, recs, mint, k).records)
    decreases |recs|
  {
    if recs != [] {
      var init := recs[..|recs| - 1];
      var rec := recs[|recs| - 1];
      assert Flagless(init) by {
        forall r | r in init ensures Strip(r) == r {
          var i :| 0 <= i < |init| && init[i] == r;
          assert recs[i] == r;
        }
      }
      NoMintNoProcessed(rs, init, mint, k);
      var p := InsertAndStep(rs, init, mint, k);
      if !HasHash(p.records, rec.transactionHash) {
        assert Strip(rec) == rec by { assert rec in recs; }
        assert Minted !in mint(p.steps);
        var grown := p.records + [rec];
        assert ProcessedOnlyBefore(rs, grown);
      }
    }
  }

  /** Documents built from logs carry no flags. */
  lemma RecordsOfFlagless(logs: seq<Log>)
    ensures Flagless(RecordsOf(logs))
  {
  }

  /** `processEvents(events)`, starting after `firstStep` queue steps: each
      log is inserted unless a document with its transaction hash exists, and
      every insert is followed by one queue step with that step's answers. */
  method ProcessEvents(store: Collection, logs: seq<Log>, mint: nat -> seq<AttemptResult>, firstStep: nat)
    returns (nextStep: nat)
    requires Answers(mint)
    modifies store
    ensures Progress(store.records, nextStep) == InsertAndStep(old(store.records), RecordsOf(logs), mint, firstStep)
    ensures Stripped(store.records) == Ingest(Stripped(old(store.records)), RecordsOf(logs))
    ensures KeepsProcessed(old(store.records), store.records)
  {
    nextStep := firstStep;
    for i := 0 to |logs|
      invariant Progress(store.records, nextStep) == InsertAndStep(old(store.records), RecordsOf(logs[..i]), mint, firstStep)
    {
      var rec := RecordOf(logs[i]);
      assert RecordsOf(logs[..i + 1]) == RecordsOf(logs[..i]) + [rec];
      assert (RecordsOf(logs[..i]) + [rec])[..i] == RecordsOf(logs[..i]);
      if !HasHash(store.records, rec.transactionHash) {
        store.InsertOne(rec);
        assert Unprocessed(store.records[|store.records| - 1]);
        var _, _, _ := ProcessQueue(store, mint(nextStep), RetryDelayMs);
        nextStep := nextStep + 1;
      }
    }
    assert logs[..|logs|] == logs;
    RecordsOfFlagless(logs);
    InsertAndStepStripped(old(store.records), RecordsOf(logs), mint, firstStep);
  }

  /** The logs delivered by the range queries that did not throw, in query order. */
  function Fetched(ranges: seq<Range>, query: Range -> Option<seq<Log>>): (logs: seq<Log>)
    ensures forall l :: l in logs ==> exists r :: r in ranges && l in LogsOf(query(r))
    ensures forall r, l :: r in ranges && l in LogsOf(query(r)) ==> l in logs
    decreases |ranges|
  {
    if ranges == [] then []
    else Fetched(ranges[..|ranges| - 1], query) + LogsOf(query(ranges[|ranges| - 1]))
  }

  lemma RecordsOfAppend(a: seq<Log>, b: seq<Log>)
    ensures RecordsOf(a + b) == RecordsOf(a) + RecordsOf(b)
  {
  }

  /** The backfill loop of `startListeningGeth`/`startListeningBSC`: from
      StartingBlock to the current head in sub-ranges of `step` blocks. A
      query that throws is skipped and the loop still advances, so exactly the
      planned ranges are queried; the logs of the others are processed in
      query order, and each of their transaction hashes ends up carried by
      exactly one document. */
  method Backfill(store: Collection, currentBlock: nat, step: nat, query: Range -> Option<seq<Log>>,
                  mint: nat -> seq<AttemptResult>, firstStep: nat)
    returns (queried: seq<Range>, nextStep: nat)
    requires step > 0 && Answers(mint)
    modifies store
    ensures queried == Ranges(StartingBlock, currentBlock, step)
    ensures Progress(store.records, nextStep) ==
      InsertAndStep(old(store.records), RecordsOf(Fetched(queried, query)), mint, firstStep)
    ensures Stripped(store.records) == Ingest(Stripped(old(store.records)), RecordsOf(Fetched(queried, query)))
    ensures KeepsProcessed(old(store.records), store.records)
    ensures UniqueHashes(old(store.records)) ==>
      UniqueHashes(store.records) &&
      forall l :: l in Fetched(queried, query) ==>
        exists i :: RecordedAt(store.records, Some(l.transactionHash), i)
  {
    queried := [];
    nextStep := firstStep;
    ghost var fetched: seq<Log> := [];
    var fromBlock: nat := StartingBlock;
    ghost var plan := Ranges(StartingBlock, currentBlock, step);
    while fromBlock <= currentBlock
      invariant queried + Ranges(fromBlock, currentBlock, step) == plan
      invariant fetched == Fetched(queried, query)
      invariant Progress(store.records, nextStep) == InsertAndStep(old(store.records), RecordsOf(fetched), mint, firstStep)
      decreases currentBlock + 1 - fromBlock
    {
      var toBlock := Min(fromBlock + step - 1, currentBlock);
      var r := Range(fromBlock, toBlock);
      RangesNext(queried, StartingBlock, fromBlock, currentBlock, step);
      FetchedStep(queried, r, query);
      RecordsOfAppend(fetched, LogsOf(query(r)));
      InsertAndStepAppend(old(store.records), RecordsOf(fetched), RecordsOf(LogsOf(query(r))), mint, firstStep);
      nextStep := QueryRange(store, r, query, mint, nextStep);
      queried := queried + [r];
      fetched := fetched + LogsOf(query(r));
      fromBlock := fromBlock + step;
    }
    ProcessedLogsRecorded(old(store.records), store.records, Fetched(queried, query), mint, firstStep);
  }

  /** One sub-range of the backfill: its logs are processed unless the query
      throws, which the loop catches. */
  method QueryRange(store: Collection, r: Range, query: Range -> Option<seq<Log>>,
                    mint: nat -> seq<AttemptResult>, firstStep: nat)
    returns (nextStep: nat)
    requires Answers(mint)
    modifies store
    ensures Progress(store.records, nextStep) ==
      InsertAndStep(old(store.records), RecordsOf(LogsOf(query(r))), mint, firstStep)
  {
    nextStep := firstStep;
    match query(r) {
      case Some(logs) => nextStep := ProcessEvents(store, logs, mint, firstStep);
      case None =>
    }
  }

  /** After `processEvents`, the documents with their flags cleared are those
      of the guarded inserts alone and no processed document has changed; in
      a collection without duplicate hashes, each log's transaction hash is
      then carried by exactly one document. */
  lemma ProcessedLogsRecorded(before: seq<Record>, after: seq<Record>, logs: seq<Log>,
                              mint: nat -> seq<AttemptResult>, k: nat)
    requires after == InsertAndStep(before, RecordsOf(logs), mint, k).records
    ensures Stripped(after) == Ingest(Stripped(before), RecordsOf(logs))
    ensures KeepsProcessed(before, after)
    ensures UniqueHashes(before) ==>
      UniqueHashes(after) &&
      forall l :: l in logs ==> exists i :: RecordedAt(after, Some(l.transactionHash), i)
  {
    RecordsOfFlagless(logs);
    InsertAndStepStripped(before, RecordsOf(logs), mint, k);
    if UniqueHashes(before) {
      StrippedIngestEachOnce(before, after, logs);
    }
  }

  /** The ingestion facts carry over from the documents with their flags
      cleared to the documents themselves. */
  lemma StrippedIngestEachOnce(before: seq<Record>, after: seq<Record>, logs: seq<Log>)
    requires Stripped(after) == Ingest(Stripped(before), RecordsOf(logs))
    requires UniqueHashes(before)
    ensures UniqueHashes(after)
    ensures forall l :: l in logs ==> exists i :: RecordedAt(after, Some(l.transactionHash), i)
  {
    StrippedSameHashes(before);
    StrippedSameHashes(after);
    IngestLogsEachOnce(Stripped(before), logs);
  }

  /** Querying one more range adds its logs after those already fetched. */
  lemma FetchedStep(queried: seq<Range>, r: Range, query: Range -> Option<seq<Log>>)
    ensures Fetched(queried + [r], query) == Fetched(queried, query) + LogsOf(query(r))
  {
    assert (queried + [r])[..|queried|] == queried;
  }

  /** Ingesting logs into a collection without duplicate hashes keeps it so,
      and leaves each log's transaction hash carried by exactly one document. */
  lemma IngestLogsEachOnce(rs: seq<Record>, logs: seq<Log>)
    requires UniqueHashes(rs)
    ensures UniqueHashes(Ingest(rs, RecordsOf(logs)))
    ensures forall l :: l in logs ==> exists i :: RecordedAt(Ingest(rs, RecordsOf(logs)), Some(l.transactionHash), i)
  {
    var recs := RecordsOf(logs);
    var out := Ingest(rs, recs);
    IngestKeepsUnique(rs, recs);
    IngestRecordsEachOnce(rs, recs);
    forall l | l in logs
      ensures exists i :: RecordedAt(out, Some(l.transactionHash), i)
    {
      var k :| 0 <= k < |logs| && logs[k] == l;
      assert recs[k] == RecordOf(l) && recs[k] in recs;
    }
    assert out == Ingest(rs, RecordsOf(logs));
  }

  /** Two TokensLocked logs of one transaction: only the first log's document
      is stored, so a second lock with another user or amount is recorded
      nowhere, although its hash is. */
  lemma SameTransactionSecondLockDropped(l1: Log, l2: Log)
    requires l1.transactionHash == l2.transactionHash
    ensures Ingest([], RecordsOf([l1, l2])) == [RecordOf(l1)]
    ensures l1.user != l2.user || l1.amount != l2.amount ==>
      forall d :: d in Ingest([], RecordsOf([l1, l2])) ==> d.user != l2.user || d.amount != l2.amount
  {
    var recs := RecordsOf([l1, l2]);
    assert recs[..1] == [RecordOf(l1)];
    assert [RecordOf(l1)][..0] == [];
    assert RecordedAt([RecordOf(l1)], recs[1].transactionHash, 0);
  }

  /** `startListeningGeth`'s backfill: 500-block queries from block 0. */
  method BackfillGeth(store: Collection, currentBlock: nat, query: Range -> Option<seq<Log>>,
                      mint: nat -> seq<AttemptResult>, firstStep: nat)
    returns (queried: seq<Range>, nextStep: nat)
    requires Answers(mint)
    modifies store
    ensures queried == Ranges(StartingBlock, currentBlock, GethStep)
    ensures forall r :: r in queried ==> r.toBlock - r.fromBlock < GethStep
    ensures Progress(store.records, nextStep) ==
      InsertAndStep(old(store.records), RecordsOf(Fetched(queried, query)), mint, firstStep)
    ensures Stripped(store.records) == Ingest(Stripped(old(store.records)), RecordsOf(Fetched(queried, query)))
  {
    queried, nextStep := Backfill(store, currentBlock, GethStep, query, mint, firstStep);
    RangesWellFormed(StartingBlock, currentBlock, GethStep);
  }

  /** `startListeningBSC`'s backfill: 1000-block queries from block 0. */
  method BackfillBsc(store: Collection, currentBlock: nat, query: Range -> Option<seq<Log>>,
                     mint: nat -> seq<AttemptResult>, firstStep: nat)
    returns (queried: seq<Range>, nextStep: nat)
    requires Answers(mint)
    modifies store
    ensures queried == Ranges(StartingBlock, currentBlock, BscStep)
    ensures forall r :: r in queried ==> r.toBlock - r.fromBlock < BscStep
    ensures Progress(store.records, nextStep) ==
      InsertAndStep(old(store.records), RecordsOf(Fetched(queried, query)), mint, firstStep)
    ensures Stripped(store.records) == Ingest(Stripped(old(store.records)), RecordsOf(Fetched(queried, query)))
  {
    queried, nextStep := Backfill(store, currentBlock, BscStep, query, mint, firstStep);
    RangesWellFormed(StartingBlock, currentBlock, BscStep);
  }

  /** The `newBlockHeaders` callback: a subscription error returns at once;
      otherwise the single block `[n, n]` is queried and its logs processed. A
      query that throws rejects the callback before anything is inserted. */
  method OnNewBlockHeader(store: Collection, header: Option<nat>, query: Range -> Option<seq<Log>>,
                          mint: nat -> seq<AttemptResult>, firstStep: nat)
    returns (queried: Option<Range>, nextStep: nat)
    requires Answers(mint)
    modifies store
    ensures header.None? ==> queried.None?
    ensures header.Some? ==> queried == Some(Range(header.value, header.value))
    ensures queried.None? ==> store.records == old(store.records) && nextStep == firstStep
    ensures queried.Some? ==>
      Progress(store.records, nextStep) ==
      InsertAndStep(old(store.records), RecordsOf(LogsOf(query(queried.value))), mint, firstStep)
    ensures queried.Some? ==>
      Stripped(store.records) == Ingest(Stripped(old(store.records)), RecordsOf(LogsOf(query(queried.value))))
    ensures KeepsProcessed(old(store.records), store.records)
  {
    queried := None;
    nextStep := firstStep;
    if header.Some? {
      var r := Range(header.value, header.value);
      queried := Some(r);
      match query(r) {
        case Some(logs) => nextStep := ProcessEvents(store, logs, mint, firstStep);
        case None =>
      }
    }
  }
}

=== FILE: service5.dfy ===
/** offchainService5.js: the chain tag of a log is derived from the address of
    the contract that emitted it, compared case-insensitively with the Geth
    bridge address; at start-up only the last LookbackBlocks blocks of the Geth
    chain are queried, and each new Geth block header queries that one block.
    The retrying `processEvent` is the one of RetryQueue, with a ten-second
    pause. */
module Service5 {
  import opened Bridge
  import opened EventStore

  const LookbackBlocks: nat := 1000

  /** `toLowerCase` on one character, for the ASCII letters an address holds. */
  function LowerChar(c: char): char {
    if 'A' <= c <= 'Z' then (c as int + 32) as char else c
  }

  function ToLower(s: string): (r: string)
    ensures |r| == |s| && forall i :: 0 <= i < |s| ==> r[i] == LowerChar(s[i])
  {
    seq(|s|, i requires 0 <= i < |s| => LowerChar(s[i]))
  }

  /** Lowering twice is lowering once. */
  lemma ToLowerIdempotent(s: string)
    ensures ToLower(ToLower(s)) == ToLower(s)
  {
    var once := ToLower(s);
    forall i | 0 <= i < |s|
      ensures ToLower(once)[i] == once[i]
    {
      var c := s[i];
      if 'A' <= c <= 'Z' {
        assert 'a' <= once[i] <= 'z';
      }
    }
  }

  /** The chain tag a log is stored under: `"geth"` when it was emitted by the
      Geth bridge, in any letter case, and `"bsc"` otherwise. */
  function ChainTag(address: Address, gethBridge: Address): (tag: string)
    ensures tag == Tag(Geth) || tag == Tag(Bsc)
  {
    if ToLower(address) == ToLower(gethBridge) then "geth" else "bsc"
  }

  /** A log is tagged `"geth"` exactly when its address matches the Geth
      bridge up to letter case, and is then minted on the BSC token; every
      other log is tagged `"bsc"` and minted on the Geth token. */
  lemma ChainTagIsGethIff(address: Address, gethBridge: Address)
    ensures ChainTag(address, gethBridge) == "geth" <==> ToLower(address) == ToLower(gethBridge)
    ensures ChainTag(address, gethBridge) != "geth" ==> ChainTag(address, gethBridge) == "bsc"
    ensures Destination(ChainTag(address, gethBridge)) == (if ToLower(address) == ToLower(gethBridge) then Bsc else Geth)
  {
    if ToLower(address) != ToLower(gethBridge) {
      assert ChainTag(address, gethBridge) == Tag(Bsc);
      DestinationIsOpposite(Bsc);
    }
  }

  /** Letter case is irrelevant on both sides of the comparison. */
  lemma ChainTagIgnoresCase(address: Address, gethBridge: Address)
    ensures ChainTag(ToLower(address), gethBridge) == ChainTag(address, gethBridge)
    ensures ChainTag(address, ToLower(gethBridge)) == ChainTag(address, gethBridge)
  {
    ToLowerIdempotent(address);
    ToLowerIdempotent(gethBridge);
  }

  /** The document inserted for a log: the derived chain tag, `_user`,
      `_amount` and the transaction hash, not processed (the draft writes no
      `failed` field, which reads as false). */
  function RecordOf(log: Log, gethBridge: Address): (r: Record)
    ensures !r.processed && !r.failed && r.transactionHash == Some(log.transactionHash)
    ensures r.user == log.user && r.amount == log.amount
    ensures Destination(r.chain) == if ToLower(log.address) == ToLower(gethBridge) then Bsc else Geth
  {
    Record(ChainTag(log.address, gethBridge), log.user, log.amount, Some(log.transactionHash), false, false)
  }

  function RecordsOf(logs: seq<Log>, gethBridge: Address): (recs: seq<Record>)
    ensures |recs| == |logs| && forall i :: 0 <= i < |logs| ==> recs[i] == RecordOf(logs[i], gethBridge)
  {
    seq(|logs|, i requires 0 <= i < |logs| => RecordOf(logs[i], gethBridge))
  }

  /** The logs this draft queries all come from the Geth bridge, so every
      document it inserts for them is tagged `"geth"` and minted on BSC. */
  lemma GethLogsTaggedGeth(logs: seq<Log>, gethBridge: Address)
    requires forall l :: l in logs ==> ToLower(l.address) == ToLower(gethBridge)
    ensures forall r :: r in RecordsOf(logs, gethBridge) ==> r.chain == "geth" && Destination(r.chain) == Bsc
  {
    var recs := RecordsOf(logs, gethBridge);
    forall r | r in recs
      ensures r.chain == "geth"
    {
      var k :| 0 <= k < |recs| && recs[k] == r;
      assert logs[k] in logs;
    }
  }

  /** `processEvents(events)`: each log is inserted unless a document with its
      transaction hash exists. */
  method ProcessEvents(store: Collection, logs: seq<Log>, gethBridge: Address)
    modifies store
    ensures store.records == Ingest(old(store.records), RecordsOf(logs, gethBridge))
  {
    for i := 0 to |logs|
      invariant store.records == Ingest(old(store.records), RecordsOf(logs[..i], gethBridge))
    {
      var rec := RecordOf(logs[i], gethBridge);
      assert RecordsOf(logs[..i + 1], gethBridge) == RecordsOf(logs[..i], gethBridge) + [rec];
      if !HasHash(store.records, rec.transactionHash) {
        store.InsertOne(rec);
      }
    }
    assert logs[..|logs|] == logs;
  }

  /** `Math.max(currentBlock - LOOKBACK_BLOCKS, 0)`: the window reaches back
      LookbackBlocks blocks from the head, or to block 0 when the chain is
      shorter than that. */
  function LookbackStart(currentBlock: nat): (fromBlock: nat)
    ensures fromBlock <= currentBlock
    ensures currentBlock - fromBlock <= LookbackBlocks
    ensures fromBlock == 0 || currentBlock - fromBlock == LookbackBlocks
  {
    var d := currentBlock - LookbackBlocks;
    if d > 0 then d else 0
  }

  /** The start-up query of `startListening`: the Geth bridge's logs in
      `[LookbackStart(currentBlock), currentBlock]` are processed; a query
      that throws is caught and nothing is inserted. */
  method StartListening(store: Collection, currentBlock: nat, gethBridge: Address,
                        query: Range -> Option<seq<Log>>)
    returns (queried: Range)
    modifies store
    ensures queried == Range(LookbackStart(currentBlock), currentBlock)
    ensures store.records == Ingest(old(store.records), RecordsOf(LogsOf(query(queried)), gethBridge))
  {
    queried := Range(LookbackStart(currentBlock), currentBlock);
    match query(queried) {
      case Some(logs) => ProcessEvents(store, logs, gethBridge);
      case None =>
    }
  }

  /** The `newBlockHeaders` callback on the Geth chain: a subscription error
      returns at once; otherwise the single block `[n, n]` is queried and its
      logs processed. */
  method OnNewBlockHeader(store: Collection, header: Option<nat>, gethBridge: Address,
                          query: Range -> Option<seq<Log>>)
    returns (queried: Option<Range>)
    modifies store
    ensures header.None? ==> queried.None?
    ensures header.Some? ==> queried == Some(Range(header.value, header.value))
    ensures store.records ==
      if queried.Some? then Ingest(old(store.records), RecordsOf(LogsOf(query(queried.value)), gethBridge))
      else old(store.records)
  {
    queried := None;
    if header.Some? {
      var r := Range(header.value, header.value);
      queried := Some(r);
      match query(r) {
        case Some(logs) => ProcessEvents(store, logs, gethBridge);
        case None =>
      }
    }
  }
}
